=== FILE: README.md ===
# Tian holiday sensor — a Dafny model

This project models the core of the `tian_holiday` Home Assistant integration: one sensor that fetches the
day's holiday/workday record from the TianAPI `jiejiari` endpoint and publishes it. It has three parts.

- **The record normaliser** (`process_holiday_data`), in `normalizer.dfy`. One raw API record becomes a
  snapshot dict with 21 keys in a fixed order:
  - absent fields take their defaults (0 for start/now/end/wage, 1 for isnotwork, "" otherwise);
  - five fields are renamed;
  - the day code is looked up in the four-entry `DAYCODE_MAP` table;
  - the vacation and remark lists are padded with "" or truncated into 7 and 4 named slots
    (`vacation_01` .. `vacation_07`, `remark_01` .. `remark_04`).
- **The envelope checks** of `fetch_holiday_data`, in `fetcher.dfy`:
  - a non-200 HTTP status fails;
  - an API `code` other than 200 fails with the message;
  - an empty or missing `result.list` gives the empty dict;
  - otherwise the first record is normalised.
- **What the sensor publishes and how it retries**:
  - `attributes.dfy` covers the `state` (the day-type label, or "未知" before any success) and the flat
    `extra_state_attributes` mapping. That mapping is the snapshot plus `update_time`, with the nested slot
    dicts spliced one level up.
  - `retry.dfy` covers the update/retry state machine: `MAX_RETRIES` = 2 and `RETRY_DELAY` = 300 seconds.
    The daily trigger resets the counter.

`json.dfy` holds decoded JSON values and the few Python rules the code depends on, such as `dict.get`,
`d[k] = v` on an insertion-ordered dict, truthiness, `==` between bools/ints/floats, and hashability.
`wrappers.dfy` holds `Option` and `Result`.

Python dicts are ordered lists of pairs (`Dict`), because the flattening loop depends on insertion order.
A Python exception raised by an unexpected payload shape is `None` in the normaliser and
`FetchError.MalformedPayload` in the fetcher. The update routine catches every exception alike, so this
merges no behaviour. The HTTP exchange is an input (`FetchOutcome`):
- the request timed out;
- the connection failed; or
- it responded with a status and, when the body decoded, a JSON value.

The clock reading is an input too (`Attempt.clock`).

The first update, a fired retry timer and `async_update` all make the same call,
`_async_update_holiday_data`. `async_update` is the host's polling and manual-refresh hook: the entity does
not set `should_poll`, so the host may call it on every scan interval. All of these are modelled as the
`Update` event, and the daily 00:01 trigger is the `DailyTrigger` event.

Some behaviour of the code worth knowing when reading the model:
- The day-type labels are the Chinese strings of `DAYCODE_MAP`: 工作日, 节假日, 双休日, 调休日.
- The retry handler increments the counter and then tests `<= MAX_RETRIES`. A daily trigger followed only
  by the retries it schedules therefore has at most two retries (`CycleRetryBound`, `AllAttemptsFail`).
  Other updates that land in between are not bounded that way. From a cleared counter, failing updates
  schedule retries 1 and 2, give up once, and the next failure schedules a retry again
  (`FailingUpdatesKeepRetrying`). The counter itself always stays within 0..2 (`RunKeepsCounterBounded`).
- Nothing coalesces a poll or manual update with an in-flight fetch or a pending retry (see Left out).
- An absent day code gets two different defaults. The `daycode` field defaults to "", while the label is
  looked up with a default code of 0, so an absent code gives 工作日 (`SnapshotDayType`).

## Model

| member | source | states |
|---|---|---|
| JsonValues.GetPresent | custom_components/tian_holiday/sensor.py:64 | `dict.get` finds a value exactly when the key is present, and the value found is stored under that key |
| JsonValues.Put | custom_components/tian_holiday/sensor.py:72-74 | storing `update_time` keeps the key order when the key exists, appends the pair when it is new, and the key then reads back the stored value |
| Normalizer.ZFill | custom_components/tian_holiday/sensor.py:187 | `zfill(2)` output has length max(2, len), ends with the input and is '0' before it |
| Normalizer.SlotKeyShape | custom_components/tian_holiday/sensor.py:186-188 | slot i (i < 9) is named prefix + '0' + the digit of i+1 |
| Normalizer.SlotKeysInjective | custom_components/tian_holiday/sensor.py:186-188 | below nine slots, different slots get different names, so no slot overwrites another |
| Normalizer.VacationSlotNames | custom_components/tian_holiday/sensor.py:184-188 | the vacation dict always has exactly the keys vacation_01 .. vacation_07 in order, whatever the list holds |
| Normalizer.RemarkSlotNames | custom_components/tian_holiday/sensor.py:191-195 | the remark dict always has exactly the keys remark_01 .. remark_04 in order |
| Normalizer.AsSequence | custom_components/tian_holiday/sensor.py:184-188 | the expansion loop succeeds exactly for a list, a string or an empty dict; a list yields its items, and a string yields element i as the one-character string of its character i |
| Normalizer.Slots | custom_components/tian_holiday/sensor.py:184-195 | the slot dict has n entries; slot i has name SlotKey(i) and holds element i, or "" when the list is shorter |
| Normalizer.SlotValuesArePadded | custom_components/tian_holiday/sensor.py:186-188 | the slot values equal the independent reference Pad: the list cut to n or padded with "" |
| Normalizer.SlotsRoundTrip | custom_components/tian_holiday/sensor.py:186-188 | a list of at most n entries not ending in "" is recovered from its slots by dropping trailing "" |
| Normalizer.DayTypeOf | custom_components/tian_holiday/sensor.py:200 | the label lookup raises exactly for an unhashable code (list or dict); otherwise it yields a string |
| Normalizer.DayTypeTable | custom_components/tian_holiday/sensor.py:176-181 | the label is table entry n exactly when the code equals n under Python `==` (so True and 1.0 find 1); it is "" exactly when the code equals none of 0..3 |
| Normalizer.Normalize | custom_components/tian_holiday/sensor.py:174-219 | the normaliser returns exactly for records whose vacation/remark are a list, a string or {} and whose daycode is hashable; the result has the 21 snapshot keys in order |
| Normalizer.Assemble | custom_components/tian_holiday/sensor.py:197-219 | the snapshot literal has the 21 snapshot keys in order, whatever the record holds |
| Normalizer.CopiedFields | custom_components/tian_holiday/sensor.py:198-216 | every copied field holds the record's value under its source key (renamed for weekday_cn, lunar_*, name_en) or its default: 0 for start/now/end/wage, 1 for isnotwork, "" otherwise |
| Normalizer.SnapshotDayType | custom_components/tian_holiday/sensor.py:199-200 | day_type is the table lookup of the daycode read with default 0; with no daycode the label is 工作日 while the daycode field is "" |
| Normalizer.SnapshotSlots | custom_components/tian_holiday/sensor.py:184-218 | the vacation and remark entries are the 7- and 4-slot dicts of the record's lists, with the empty list when absent |
| Normalizer.EmptyRecord | custom_components/tian_holiday/sensor.py:174-219 | an empty record normalises to the all-defaults snapshot: label 工作日, every slot "" |
| Normalizer.HolidayExampleLabel | custom_components/tian_holiday/sensor.py:200 | a record with daycode 1 gets the label 节假日 |
| Normalizer.HolidayExampleSlots | custom_components/tian_holiday/sensor.py:184-195 | one vacation date lands in vacation_01, all other vacation and remark slots are "" |
| Fetcher.FirstRecord | custom_components/tian_holiday/sensor.py:167-171 | a falsy result is the empty result; a dict result whose `list` is missing or falsy is the empty result, whose `list` is truthy but not a list is an error, and whose `list` is a non-empty list yields its element 0; a record is only ever taken that way |
| Fetcher.FirstRecordOfNonDict | custom_components/tian_holiday/sensor.py:168-171 | a truthy non-dict result: a list or string is an error exactly when it contains "list", else the empty result; a truthy bool or number is always an error |
| Fetcher.Fetch | custom_components/tian_holiday/sensor.py:152-172 | a non-200 status fails with that status; a success implies status 200, an object body and code == 200; a non-empty success has the snapshot keys |
| Fetcher.EnvelopeDecision | custom_components/tian_holiday/sensor.py:164-172 | on a documented envelope: code ≠ 200 is an API error carrying `msg`; an empty list is the empty result; otherwise the first record's snapshot or its error |
| Fetcher.OnlyFirstRecordCounts | custom_components/tian_holiday/sensor.py:171 | records after the first never change the outcome |
| Fetcher.MissingResultIsEmpty | custom_components/tian_holiday/sensor.py:167-169 | code 200 with `result` missing or {} is the empty result, not an error |
| Fetcher.InvalidKeyExample | custom_components/tian_holiday/sensor.py:164-165 | code 800 "invalid key" is an API error carrying that message |
| Attributes.StateOf | custom_components/tian_holiday/sensor.py:61-64 | with no snapshot the state is 未知; when day_type is present the state is the value stored under it |
| Attributes.NormalizedState | custom_components/tian_holiday/sensor.py:61-64 | the state of a normalised snapshot is the day-type lookup of the record's daycode (default 0) |
| Attributes.ExtraStateAttributes | custom_components/tian_holiday/sensor.py:66-84 | the loop computes the reference Published: {} with no snapshot, else the snapshot plus update_time with dict values spread into their members, later keys overwriting earlier ones |
| Attributes.AssignMembers | custom_components/tian_holiday/sensor.py:80-81 | the inner loop assigns every member of a nested dict onto the mapping in order |
| Attributes.AssignKeys | custom_components/tian_holiday/sensor.py:77-83 | the flat mapping has exactly the keys of the assigned pairs |
| Attributes.AssignDistinct | custom_components/tian_holiday/sensor.py:77-83 | when no key is assigned twice, every pair's value survives in the mapping |
| Attributes.SnapshotContributions | custom_components/tian_holiday/sensor.py:72-83 | a snapshot flattens to its scalars, then the vacation slots, then the remark slots, then update_time |
| Attributes.PublishedShape | custom_components/tian_holiday/sensor.py:66-84 | a snapshot-shaped dict publishes exactly the 19 scalar keys, 11 slot keys and update_time; the nested keys are gone, scalars keep their values and slot values are lifted |
| Attributes.NormalizedShape | custom_components/tian_holiday/sensor.py:184-219 | a normalised snapshot with non-dict scalar values is snapshot-shaped, and its slot dicts are those of the record's lists |
| RetryPolicy.HandleRetry | custom_components/tian_holiday/sensor.py:135-150 | a failure schedules a retry after 300 s exactly when fewer than 2 retries were counted, else resets the counter to 0; the snapshot is untouched |
| RetryPolicy.UpdateHolidayData | custom_components/tian_holiday/sensor.py:117-133 | a non-empty fetch replaces the snapshot wholesale, stamps the clock and clears the counter with nothing scheduled; an error or empty result is exactly the retry handling: snapshot and time kept, counter +1 with a retry while under the bound, else counter 0 and nothing scheduled |
| RetryPolicy.UpdateWithWrite | custom_components/tian_holiday/sensor.py:119-133 | with a raising state write, a successful fetch keeps the new snapshot and time but ends with counter 1 and a retry scheduled; otherwise it behaves as UpdateHolidayData |
| RetryPolicy.SampleResponseFetch | custom_components/tian_holiday/sensor.py:159-172 | a status-200 success envelope with one empty record fetches the all-defaults snapshot |
| RetryPolicy.StartupWriteSchedulesRetry | custom_components/tian_holiday/sensor.py:122-133 | a successful first fetch whose state write raises leaves counter 1 and a 300 s retry scheduled |
| RetryPolicy.StartupSuccessSchedulesNothing | custom_components/tian_holiday/sensor.py:122-127 | the same fetch with a working write leaves counter 0 and nothing scheduled |
| RetryPolicy.ScheduledUpdate | custom_components/tian_holiday/sensor.py:105-109 | the daily trigger clears the counter first, so a failure always schedules retry 1 |
| RetryPolicy.CycleRetryBound | custom_components/tian_holiday/sensor.py:105-150 | one daily cycle runs at most 2 retries, however the attempts turn out |
| RetryPolicy.AllAttemptsFail | custom_components/tian_holiday/sensor.py:105-150 | when every attempt fails, a cycle runs exactly 2 retries, then stops with the counter 0 and the old snapshot still published |
| RetryPolicy.FailingUpdatesKeepRetrying | custom_components/tian_holiday/sensor.py:133-150 | from a cleared counter, failing updates schedule retries 1 and 2, then give up and restore the state, and the next failure schedules a retry again |
| RetryPolicy.RunKeepsCounterBounded | custom_components/tian_holiday/sensor.py:117-150 | the retry counter stays within 0..2 over any sequence of updates and daily triggers |
| RetryPolicy.PublishedStaysPublished | custom_components/tian_holiday/sensor.py:117-133 | once a snapshot is published no failure withdraws it |
| RetryPolicy.LastSuccessWins | custom_components/tian_holiday/sensor.py:119-127 | after any run the state holds the last successful attempt's snapshot and that attempt's clock |
| RetryPolicy.FailuresKeepData | custom_components/tian_holiday/sensor.py:128-133 | failing attempts leave the snapshot and the update time unchanged |

## Left out

- The HTTP request itself: the URL with the API key, the `aiohttp` session, the 10-second timeout and JSON
  decoding are foreign code. Their outcome is the input `FetchOutcome`; a timeout is its `TimedOut` case.
- Timers: `async_track_time_change` (00:01 daily), `loop.call_later` and the unsubscribe handle of
  `async_added_to_hass`/`async_will_remove_from_hass`. A scheduled retry is the returned `Effect`, and the
  attempt it fires is a later `Update` event. A retry that fires after the entity was removed is not
  modelled.
- `dt_util.now()` and `strftime`: the formatted clock string is part of each `Attempt`.
- RetryPolicy.UpdateHolidayData: assumes that `async_write_ha_state` does not raise. The write sits inside
  the `try`, so when it raises after a successful fetch the retry handling runs on the updated state.
  `UpdateWithWrite` models that path, but the events of `Run` and `Cycle` use `UpdateHolidayData`. The
  write raises while the entity has no entity id, as during the first update, which runs inside
  `async_setup_entry` before `async_add_entities` (see Findings). That behaviour belongs to Home
  Assistant, which is not part of this model.
- Logging, entity metadata (unique id, name, device info), `async_setup_entry` and `config_flow.py`.
  These are host-platform plumbing; the one effect of `async_setup_entry` on the retry path is described
  above.
- Host polling: how often the host calls `async_update` is not modelled, because polling belongs to Home
  Assistant and the model does not verify it. A poll is an `Update` event.
  - The `Run` lemmas (`RunKeepsCounterBounded`, `PublishedStaysPublished`, `LastSuccessWins`,
    `FailuresKeepData`) cover polls interleaved with anything.
  - `Cycle` and `CycleRetryBound` assume that no poll or manual update lands between a daily trigger and
    its retries.
- Concurrency: overlapping fetches (a poll, a manual update or the daily trigger while a retry is pending)
  are not modelled. Events are handled one at a time. The code has no coalescing guard.
- Floating-point values are exact reals. NaN and infinities, which Python's decoder accepts, are not
  representable.
- Duplicate keys in a decoded JSON object: Python's decoder keeps the last one, while `Get` finds the
  first. The model assumes decoded objects have distinct keys.
- Normalizer.ZFill: models `zfill` only for unsigned digit strings, which is all `str(i + 1)` produces.
- JsonValues.Put: does not state that the other keys keep their values; only the key order and the stored
  key are stated.
- Fetcher.FirstRecord: its own contract does not state the error cases of a truthy non-dict `result`;
  `FirstRecordOfNonDict` states them.
- Attributes.ExtraStateAttributes: the published attributes are a Dafny map, so their key order is not
  modelled. `SnapshotContributions` states the order in which the pairs are assigned.
- Attributes.PublishedShape: assumes that no scalar field of the snapshot holds a dict (`FlatScalars`).
  When one does, the code spreads its members as well, and `ExtraStateAttributes` covers that case only
  through the reference `Published`.

## Findings

| source | as written | input that shows it | evidently intended | confidence | as-written member | corrected member |
|---|---|---|---|---|---|---|
| custom_components/tian_holiday/sensor.py:119-133 | `async_write_ha_state()` is inside the `try`, so when it raises after a successful fetch the `except` runs the retry handling: the counter becomes 1 and a retry is scheduled | the first update in `async_setup_entry` (sensor.py:37), which runs before the entity is added and so before it has an entity id, fetching a status-200 success envelope | a successful fetch clears the counter and schedules nothing (sensor.py:125) | low: depends on Home Assistant raising on a write without an entity id; not executed | RetryPolicy.StartupWriteSchedulesRetry | RetryPolicy.StartupSuccessSchedulesNothing |

=== FILE: attributes.dfy ===
/**
 * What the sensor publishes from its stored snapshot: the `state` string and the
 * flat `extra_state_attributes` mapping, where every dict-valued entry is spliced
 * one level up and later keys overwrite earlier ones.
 */
module Attributes {
  import opened Wrappers
  import opened JsonValues
  import opened Normalizer

  /** The state shown before any successful fetch ("unknown"). */
  const UnknownState: string := "未知"

  /** The attribute key added to the snapshot before flattening. */
  const UpdateTimeKey: string := "update_time"

  /** The attribute keys a snapshot whose scalar fields are not dicts publishes. */
  const AttributeKeys: seq<string> := ScalarKeys + VacationKeys + RemarkKeys + [UpdateTimeKey]

  /** `state`: the day-type label of the stored snapshot, or "unknown" when there is none. */
  function StateOf(data: Dict): (r: Json)
    ensures data == [] ==> r == JStr(UnknownState)
    ensures "day_type" in KeysOf(data) ==> ("day_type", r) in data
  {
    GetPresent(data, "day_type");
    GetOr(data, "day_type", JStr(UnknownState))
  }

  /** The key/value pairs one entry adds to the flat mapping: its members if it is a dict, else itself. */
  function Contribution(e: (string, Json)): Dict {
    if e.1.JObj? then e.1.members else [e]
  }

  /** The pairs the flattening loop assigns, in order. */
  function Contributions(d: Dict): Dict {
    if |d| == 0 then [] else Contributions(d[..|d| - 1]) + Contribution(d[|d| - 1])
  }

  /** The mapping left by assigning the pairs onto `m` one after another (a later key overwrites an earlier one). */
  function AssignOnto(m: map<string, Json>, ps: Dict): map<string, Json> {
    if |ps| == 0 then m else AssignOnto(m, ps[..|ps| - 1])[ps[|ps| - 1].0 := ps[|ps| - 1].1]
  }

  /** The mapping built from nothing by assigning the pairs in order. */
  function Assign(ps: Dict): map<string, Json> {
    AssignOnto(map[], ps)
  }

  /** Reference for `extra_state_attributes`. */
  function Published(data: Dict, updateTime: string): map<string, Json> {
    if data == [] then map[] else Assign(Contributions(Put(data, UpdateTimeKey, JStr(updateTime))))
  }

  /** `extra_state_attributes`: copy the snapshot, add `update_time`, flatten nested dicts one level. */
  method ExtraStateAttributes(data: Dict, updateTime: string) returns (attributes: map<string, Json>)
    ensures attributes == Published(data, updateTime)
  {
    if data == [] {
      return map[];
    }
    var d := Put(data, UpdateTimeKey, JStr(updateTime));
    attributes := map[];
    var i := 0;
    while i < |d|
      invariant 0 <= i <= |d|
      invariant attributes == Assign(Contributions(d[..i]))
    {
      var (key, value) := d[i];
      assert d[..i + 1][..i] == d[..i];
      AssignOntoAppend(map[], Contributions(d[..i]), Contribution(d[i]));
      if value.JObj? {
        attributes := AssignMembers(attributes, value.members);
      } else {
        attributes := attributes[key := value];
      }
      i := i + 1;
    }
    assert d[..i] == d;
  }

  /** The inner loop: assign every member of a nested dict onto the mapping. */
  method AssignMembers(m: map<string, Json>, members: Dict) returns (r: map<string, Json>)
    ensures r == AssignOnto(m, members)
  {
    r := m;
    var j := 0;
    while j < |members|
      invariant 0 <= j <= |members|
      invariant r == AssignOnto(m, members[..j])
    {
      var (subKey, subValue) := members[j];
      assert members[..j + 1][..j] == members[..j];
      r := r[subKey := subValue];
      j := j + 1;
    }
    assert members[..j] == members;
  }

  // ---------------------------------------------------------------------------
  // Properties of the flattening
  // ---------------------------------------------------------------------------

  /** The flat mapping has exactly the keys of the assigned pairs. */
  lemma {:induction false} AssignKeys(ps: Dict)
    ensures Assign(ps).Keys == set k | k in KeysOf(ps)
  {
    if |ps| > 0 {
      AssignKeys(ps[..|ps| - 1]);
      assert Assign(ps) == Assign(ps[..|ps| - 1])[ps[|ps| - 1].0 := ps[|ps| - 1].1];
      assert KeysOf(ps) == KeysOf(ps[..|ps| - 1]) + [ps[|ps| - 1].0];
    }
  }

  /** When no key is assigned twice, each pair's value survives in the flat mapping. */
  lemma {:induction false} AssignDistinct(ps: Dict, i: int)
    requires Distinct(KeysOf(ps))
    requires 0 <= i < |ps|
    ensures ps[i].0 in Assign(ps) && Assign(ps)[ps[i].0] == ps[i].1
  {
    var init := ps[..|ps| - 1];
    assert KeysOf(init) == KeysOf(ps)[..|ps| - 1];
    if i < |ps| - 1 {
      AssignDistinct(init, i);
      assert ps[i].0 != ps[|ps| - 1].0 by { assert KeysOf(ps)[i] != KeysOf(ps)[|ps| - 1]; }
    }
  }

  /** Flattening distributes over concatenation. */
  lemma {:induction false} ContributionsAppend(a: Dict, b: Dict)
    ensures Contributions(a + b) == Contributions(a) + Contributions(b)
    decreases |b|
  {
    if |b| == 0 {
      assert a + b == a;
    } else {
      var b' := b[..|b| - 1];
      assert (a + b)[..|a + b| - 1] == a + b';
      ContributionsAppend(a, b');
    }
  }

  /** A dict none of whose values is a dict flattens to itself. */
  lemma {:induction false} ContributionsFlat(d: Dict)
    requires forall i :: 0 <= i < |d| ==> !d[i].1.JObj?
    ensures Contributions(d) == d
  {
    if |d| > 0 {
      ContributionsFlat(d[..|d| - 1]);
    }
  }

  /** Assigning two runs of pairs is assigning the first, then the second. */
  lemma {:induction false} AssignOntoAppend(m: map<string, Json>, a: Dict, b: Dict)
    ensures AssignOnto(m, a + b) == AssignOnto(AssignOnto(m, a), b)
    decreases |b|
  {
    if |b| == 0 {
      assert a + b == a;
    } else {
      var b' := b[..|b| - 1];
      assert (a + b)[..|a + b| - 1] == a + b';
      AssignOntoAppend(m, a, b');
    }
  }

  // ---------------------------------------------------------------------------
  // The attributes of a normalised snapshot
  // ---------------------------------------------------------------------------

  /** No scalar field of the snapshot holds a dict, as is the case for the API's strings and numbers. */
  predicate FlatScalars(snapshot: Dict) {
    |ScalarKeys| <= |snapshot| && forall i :: 0 <= i < |ScalarKeys| ==> !snapshot[i].1.JObj?
  }

  /** Different attribute keys are different strings. */
  lemma AttributeKeysDistinct()
    ensures Distinct(AttributeKeys)
  {
    forall i, j | 0 <= i < j < |AttributeKeys| ensures AttributeKeys[i] != AttributeKeys[j] {
      var a, b := AttributeKeys[i], AttributeKeys[j];
      if |a| == |b| {
        assert a[0] != b[0] || a[|a| - 1] != b[|b| - 1];
      }
    }
  }

  /** The names of the two nested dicts are not attribute keys. */
  lemma NestedKeysNotPublished()
    ensures "vacation" !in AttributeKeys && "remark" !in AttributeKeys
  {
    assert forall k :: k in AttributeKeys ==> k == UpdateTimeKey || k in ScalarKeys || k in VacationKeys || k in RemarkKeys;
  }

  /** The pairs a snapshot flattens to: its scalars, its vacation slots, its remark slots, then update_time. */
  lemma {:induction false} SnapshotContributions(snapshot: Dict, updateTime: string)
    requires KeysOf(snapshot) == SnapshotKeys
    requires FlatScalars(snapshot)
    ensures snapshot[|ScalarKeys|].1.JObj? && snapshot[|ScalarKeys| + 1].1.JObj? ==>
      Contributions(Put(snapshot, UpdateTimeKey, JStr(updateTime))) ==
        snapshot[..|ScalarKeys|]
        + snapshot[|ScalarKeys|].1.members
        + snapshot[|ScalarKeys| + 1].1.members
        + [(UpdateTimeKey, JStr(updateTime))]
  {
    var n := |ScalarKeys|;
    var u := [(UpdateTimeKey, JStr(updateTime))];
    UpdateTimeIsNew(snapshot, updateTime);
    assert snapshot == snapshot[..n] + [snapshot[n]] + [snapshot[n + 1]];
    FlattenScalarsThenTwo(snapshot[..n], snapshot[n], snapshot[n + 1], u);
  }

  /** update_time is not a snapshot key, so storing it appends a pair. */
  lemma UpdateTimeIsNew(snapshot: Dict, updateTime: string)
    requires KeysOf(snapshot) == SnapshotKeys
    ensures Put(snapshot, UpdateTimeKey, JStr(updateTime)) == snapshot + [(UpdateTimeKey, JStr(updateTime))]
  {
    assert UpdateTimeKey !in SnapshotKeys;
  }

  /** Flat pairs, two more values, then flat pairs again: only the two values in the middle can be dicts that get spread. */
  lemma {:induction false} FlattenScalarsThenTwo(s: Dict, a: (string, Json), b: (string, Json), u: Dict)
    requires forall i :: 0 <= i < |s| ==> !s[i].1.JObj?
    requires forall i :: 0 <= i < |u| ==> !u[i].1.JObj?
    ensures Contributions(s + [a] + [b] + u) == s + Contribution(a) + Contribution(b) + u
  {
    ContributionsAppend(s + [a] + [b], u);
    ContributionsAppend(s + [a], [b]);
    ContributionsAppend(s, [a]);
    ContributionsFlat(s);
    ContributionsFlat(u);
    assert Contributions([a]) == Contributions([]) + Contribution(a);
    assert Contributions([b]) == Contributions([]) + Contribution(b);
  }

  /** Assigning scalars, vacation slots, remark slots and update_time, all under distinct keys, keeps every value. */
  lemma {:induction false} AssignAttributePairs(scalars: Dict, vacation: Dict, remark: Dict, updateTime: string)
    requires KeysOf(scalars) == ScalarKeys
    requires KeysOf(vacation) == VacationKeys
    requires KeysOf(remark) == RemarkKeys
    ensures Assign(scalars + vacation + remark + [(UpdateTimeKey, JStr(updateTime))]).Keys == set k | k in AttributeKeys
    ensures forall i :: 0 <= i < |scalars| ==>
      Assign(scalars + vacation + remark + [(UpdateTimeKey, JStr(updateTime))])[scalars[i].0] == scalars[i].1
    ensures forall i :: 0 <= i < |vacation| ==>
      Assign(scalars + vacation + remark + [(UpdateTimeKey, JStr(updateTime))])[vacation[i].0] == vacation[i].1
    ensures forall i :: 0 <= i < |remark| ==>
      Assign(scalars + vacation + remark + [(UpdateTimeKey, JStr(updateTime))])[remark[i].0] == remark[i].1
    ensures Assign(scalars + vacation + remark + [(UpdateTimeKey, JStr(updateTime))])[UpdateTimeKey] == JStr(updateTime)
  {
    var ps := scalars + vacation + remark + [(UpdateTimeKey, JStr(updateTime))];
    AttributePairKeys(scalars, vacation, remark, updateTime);
    AssignKeys(ps);
    AttributeKeysDistinct();
    AssignDistinct(ps, |ps| - 1);
    forall i | 0 <= i < |scalars| ensures Assign(ps)[scalars[i].0] == scalars[i].1 {
      AssignDistinct(ps, i);
    }
    forall i | 0 <= i < |vacation| ensures Assign(ps)[vacation[i].0] == vacation[i].1 {
      AssignDistinct(ps, |scalars| + i);
    }
    forall i | 0 <= i < |remark| ensures Assign(ps)[remark[i].0] == remark[i].1 {
      AssignDistinct(ps, |scalars| + |vacation| + i);
    }
  }

  lemma AttributePairKeys(scalars: Dict, vacation: Dict, remark: Dict, updateTime: string)
    requires KeysOf(scalars) == ScalarKeys
    requires KeysOf(vacation) == VacationKeys
    requires KeysOf(remark) == RemarkKeys
    ensures KeysOf(scalars + vacation + remark + [(UpdateTimeKey, JStr(updateTime))]) == AttributeKeys
  {
    var ps := scalars + vacation + remark + [(UpdateTimeKey, JStr(updateTime))];
    assert KeysOf(ps) == KeysOf(scalars) + KeysOf(vacation) + KeysOf(remark) + [UpdateTimeKey];
  }

  /** A dict shaped like a snapshot: the snapshot keys, flat scalars, and slot dicts under vacation and remark. */
  predicate SnapshotShaped(snapshot: Dict) {
    && KeysOf(snapshot) == SnapshotKeys
    && FlatScalars(snapshot)
    && snapshot[|ScalarKeys|].1.JObj? && KeysOf(snapshot[|ScalarKeys|].1.members) == VacationKeys
    && snapshot[|ScalarKeys| + 1].1.JObj? && KeysOf(snapshot[|ScalarKeys| + 1].1.members) == RemarkKeys
  }

  /**
   * The flat attributes of a snapshot-shaped dict are exactly the 19 scalar
   * keys, the 7 vacation slots, the 4 remark slots and update_time: the nested
   * `vacation` and `remark` keys are gone, every scalar keeps its snapshot value
   * and every slot value is lifted to the top level.
   */
  lemma {:induction false} PublishedShape(snapshot: Dict, updateTime: string)
    requires SnapshotShaped(snapshot)
    ensures Published(snapshot, updateTime).Keys == set k | k in AttributeKeys
    ensures "vacation" !in Published(snapshot, updateTime) && "remark" !in Published(snapshot, updateTime)
    ensures Published(snapshot, updateTime)[UpdateTimeKey] == JStr(updateTime)
    ensures forall i :: 0 <= i < |ScalarKeys| ==>
      Get(snapshot, ScalarKeys[i]) == Some(Published(snapshot, updateTime)[ScalarKeys[i]])
    ensures forall i :: 0 <= i < VacationSlotCount ==>
      Published(snapshot, updateTime)[VacationKeys[i]] == snapshot[|ScalarKeys|].1.members[i].1
    ensures forall i :: 0 <= i < RemarkSlotCount ==>
      Published(snapshot, updateTime)[RemarkKeys[i]] == snapshot[|ScalarKeys| + 1].1.members[i].1
  {
    var n := |ScalarKeys|;
    var scalars := snapshot[..n];
    var v, r := snapshot[n].1.members, snapshot[n + 1].1.members;
    SnapshotContributions(snapshot, updateTime);
    assert snapshot != [];
    assert Published(snapshot, updateTime) == Assign(scalars + v + r + [(UpdateTimeKey, JStr(updateTime))]);
    assert KeysOf(scalars) == ScalarKeys by { assert KeysOf(scalars) == KeysOf(snapshot)[..n]; }
    AssignAttributePairs(scalars, v, r, updateTime);
    NestedKeysNotPublished();
    forall i | 0 <= i < n ensures Get(snapshot, ScalarKeys[i]) == Some(Published(snapshot, updateTime)[ScalarKeys[i]]) {
      GetSnapshotField(snapshot, i);
      assert scalars[i] == snapshot[i];
    }
    forall i | 0 <= i < VacationSlotCount ensures Published(snapshot, updateTime)[VacationKeys[i]] == v[i].1 {
      assert v[i].0 == KeysOf(v)[i];
    }
    forall i | 0 <= i < RemarkSlotCount ensures Published(snapshot, updateTime)[RemarkKeys[i]] == r[i].1 {
      assert r[i].0 == KeysOf(r)[i];
    }
  }

  /** A normalised snapshot is snapshot-shaped when its scalar fields are flat, and holds the slot dicts of the padded lists. */
  lemma {:induction false} NormalizedShape(raw: Dict, snapshot: Dict)
    requires Normalize(raw) == Some(snapshot)
    requires FlatScalars(snapshot)
    ensures SnapshotShaped(snapshot)
    ensures snapshot[|ScalarKeys|].1 == JObj(Slots("vacation_", AsSequence(GetOr(raw, "vacation", JArr([]))).value, VacationSlotCount))
    ensures snapshot[|ScalarKeys| + 1].1 == JObj(Slots("remark_", AsSequence(GetOr(raw, "remark", JArr([]))).value, RemarkSlotCount))
  {
    VacationSlotNames(AsSequence(GetOr(raw, "vacation", JArr([]))).value);
    RemarkSlotNames(AsSequence(GetOr(raw, "remark", JArr([]))).value);
  }

  /** The published state of a normalised snapshot is its day-type label; before any success it is "unknown". */
  lemma NormalizedState(raw: Dict, snapshot: Dict)
    requires Normalize(raw) == Some(snapshot)
    ensures Some(StateOf(snapshot)) == DayTypeOf(GetOr(raw, "daycode", JInt(0)))
    ensures StateOf([]) == JStr(UnknownState)
  {
    SnapshotDayType(raw);
  }
}

=== FILE: fetcher.dfy ===
/**
 * The envelope checks of `fetch_holiday_data`. The HTTP exchange itself (session,
 * 10-second timeout, JSON decoding) is an input: the fetch either timed out,
 * failed to connect, or produced a status and, when the body decoded, a JSON value.
 */
module Fetcher {
  import opened Wrappers
  import opened JsonValues
  import opened Normalizer

  /** How the HTTP exchange ended; the body is None when it did not decode as JSON. */
  datatype FetchOutcome =
    | TimedOut
    | ConnectionFailed
    | Responded(status: int, body: Option<Json>)

  /** Every way a fetch fails. All of them are caught alike by the update routine. */
  datatype FetchError =
    | Timeout
    | Connection
    | HttpStatus(status: int)
    | UndecodableBody
    | ApiError(msg: Option<Json>)
    /** A TypeError, KeyError or AttributeError raised on an unexpected payload shape. */
    | MalformedPayload

  /**
   * The record picked out of the envelope's `result`: None for the empty result,
   * `result["list"][0]` otherwise. Mirrors `not result`, `"list" not in result`,
   * `not result["list"]` and the indexing, with Python's meaning of `in` and `[]`
   * for each kind of value.
   */
  function FirstRecord(result: Json): (r: Result<Option<Json>, FetchError>)
    ensures !Truthy(result) ==> r == Ok(None)
    ensures r.Ok? && r.value.Some? ==>
      result.JObj? && exists xs :: Get(result.members, "list") == Some(JArr(xs)) && |xs| > 0 && r.value.value == xs[0]
    ensures result.JObj? && (Get(result.members, "list").None? || !Truthy(Get(result.members, "list").value)) ==>
      r == Ok(None)
    ensures result.JObj? && Get(result.members, "list").Some? && Truthy(Get(result.members, "list").value)
            && !Get(result.members, "list").value.JArr? ==>
      r == Err(MalformedPayload)
    ensures result.JObj? && Get(result.members, "list").Some? && Get(result.members, "list").value.JArr?
            && |Get(result.members, "list").value.items| > 0 ==>
      r == Ok(Some(Get(result.members, "list").value.items[0]))
  {
    if !Truthy(result) then Ok(None)
    else match result
      case JObj(members) =>
        (match Get(members, "list")
         case None => Ok(None)
         case Some(list) =>
           if !Truthy(list) then Ok(None)
           else if list.JArr? then Ok(Some(list.items[0]))
           // `s[0]` of a non-empty string is a string, which has no `.get`; a dict
           // has no key 0; a bool or number is not subscriptable.
           else Err(MalformedPayload))
      // `"list" in xs` holds only for the string element "list", and then `xs["list"]` raises.
      case JArr(xs) => if JStr("list") in xs then Err(MalformedPayload) else Ok(None)
      case JStr(s) => if IsSubstring("list", s) then Err(MalformedPayload) else Ok(None)
      // `in` on true or a non-zero number raises TypeError.
      case _ => Err(MalformedPayload)
  }

  /**
   * A truthy `result` that is not a dict: a list or string is searched for "list"
   * and raises only when found, because the next step indexes it by "list";
   * `in` on true or a non-zero number raises at once.
   */
  lemma FirstRecordOfNonDict(result: Json)
    requires Truthy(result) && !result.JObj?
    ensures result.JArr? ==> FirstRecord(result) == (if JStr("list") in result.items then Err(MalformedPayload) else Ok(None))
    ensures result.JStr? ==> FirstRecord(result) == (if IsSubstring("list", result.s) then Err(MalformedPayload) else Ok(None))
    ensures !result.JArr? && !result.JStr? ==> FirstRecord(result) == Err(MalformedPayload)
  {
  }

  /** `fetch_holiday_data`: an error, the empty dict, or the snapshot of the first record. */
  function Fetch(o: FetchOutcome): (r: Result<Dict, FetchError>)
    ensures o.Responded? && o.status != 200 ==> r == Err(HttpStatus(o.status))
    ensures r.Ok? ==> o.Responded? && o.status == 200 && o.body.Some? && o.body.value.JObj?
    ensures r.Ok? ==> PyEqualsInt(GetOr(o.body.value.members, "code", JNull), 200)
    ensures r.Ok? && r.value != [] ==> KeysOf(r.value) == SnapshotKeys
  {
    match o
    case TimedOut => Err(Timeout)
    case ConnectionFailed => Err(Connection)
    case Responded(status, body) =>
      if status != 200 then Err(HttpStatus(status))
      else if body.None? then Err(UndecodableBody)
      else if !body.value.JObj? then Err(MalformedPayload)  // only a dict has `.get`
      else
        var envelope := body.value.members;
        if !PyEqualsInt(GetOr(envelope, "code", JNull), 200) then Err(ApiError(Get(envelope, "msg")))
        else
          match FirstRecord(GetOr(envelope, "result", JObj([])))
          case Err(e) => Err(e)
          case Ok(None) => Ok([])
          case Ok(Some(record)) =>
            if !record.JObj? then Err(MalformedPayload)
            else
              match Normalize(record.members)
              case None => Err(MalformedPayload)
              case Some(snapshot) => Ok(snapshot)
  }

  /** The envelope the API documents: a code, a message and a list of records under `result`. */
  function Envelope(code: Json, msg: Json, records: seq<Json>): Json {
    JObj([("code", code), ("msg", msg), ("result", JObj([("list", JArr(records))]))])
  }

  /** The snapshot a record yields, or the error when it is not a normalisable dict. */
  function RecordSnapshot(record: Json): Result<Dict, FetchError> {
    if record.JObj? && Normalizable(record.members) then Ok(Normalize(record.members).value)
    else Err(MalformedPayload)
  }

  /**
   * On a documented envelope with status 200: a code other than 200 is an API
   * error carrying the message, an empty list is the empty result, and otherwise
   * the result is the snapshot of the first record.
   */
  lemma {:induction false} EnvelopeDecision(code: Json, msg: Json, records: seq<Json>)
    ensures Fetch(Responded(200, Some(Envelope(code, msg, records)))) ==
      if !PyEqualsInt(code, 200) then Err(ApiError(Some(msg)))
      else if |records| == 0 then Ok([])
      else RecordSnapshot(records[0])
  {
    var e := Envelope(code, msg, records).members;
    GetFirst(e, 0);
    GetFirst(e, 1);
    GetFirst(e, 2);
    GetFirst([("list", JArr(records))], 0);
  }

  /** Only the first record counts: the records after it never change the outcome. */
  lemma OnlyFirstRecordCounts(code: Json, msg: Json, records: seq<Json>)
    requires |records| > 0
    ensures Fetch(Responded(200, Some(Envelope(code, msg, records)))) ==
            Fetch(Responded(200, Some(Envelope(code, msg, records[..1]))))
  {
    EnvelopeDecision(code, msg, records);
    EnvelopeDecision(code, msg, records[..1]);
  }

  /** An envelope reporting success whose result is missing, or has no records list, is the empty result. */
  lemma MissingResultIsEmpty(envelope: Dict)
    requires PyEqualsInt(GetOr(envelope, "code", JNull), 200)
    requires Get(envelope, "result").None? || Get(envelope, "result") == Some(JObj([]))
    ensures Fetch(Responded(200, Some(JObj(envelope)))) == Ok([])
  {
  }

  /** The API's own rejection: code 800 with message "invalid key" is an API error carrying that message. */
  lemma InvalidKeyExample()
    ensures Fetch(Responded(200, Some(JObj([("code", JInt(800)), ("msg", JStr("invalid key"))])))) ==
            Err(ApiError(Some(JStr("invalid key"))))
  {
    var e := [("code", JInt(800)), ("msg", JStr("invalid key"))];
    GetFirst(e, 0);
    GetFirst(e, 1);
  }
}

=== FILE: json.dfy ===
/**
 * Decoded JSON values and the few Python dict/truthiness/equality rules the
 * sensor relies on. A Python dict keeps insertion order, so an object is an
 * ordered list of members rather than a Dafny map.
 */
module JsonValues {
  import opened Wrappers

  /** A value as the JSON decoder hands it to the sensor. */
  datatype Json =
    | JNull
    | JBool(b: bool)
    | JInt(i: int)
    | JFloat(f: real)
    | JStr(s: string)
    | JArr(items: seq<Json>)
    | JObj(members: seq<(string, Json)>)

  /** A Python dict with string keys, in insertion order. */
  type Dict = seq<(string, Json)>

  /** The empty string value, the default of every text field. */
  const Blank: Json := JStr("")

  /** The keys of `d`, in insertion order. */
  function KeysOf(d: Dict): (ks: seq<string>)
    ensures |ks| == |d|
    ensures forall i :: 0 <= i < |d| ==> ks[i] == d[i].0
  {
    seq(|d|, i requires 0 <= i < |d| => d[i].0)
  }

  /** No key occurs twice. */
  predicate Distinct(ks: seq<string>) {
    forall i, j :: 0 <= i < j < |ks| ==> ks[i] != ks[j]
  }

  /** `d.get(k)`: the value stored under `k`, if any. */
  function Get(d: Dict, k: string): Option<Json> {
    if |d| == 0 then None
    else if d[0].0 == k then Some(d[0].1)
    else Get(d[1..], k)
  }

  /** `get` finds a value exactly when the key is present, and the value it finds is stored under that key. */
  lemma {:induction false} GetPresent(d: Dict, k: string)
    ensures Get(d, k).None? <==> k !in KeysOf(d)
    ensures Get(d, k).Some? ==> (k, Get(d, k).value) in d
  {
    if |d| > 0 {
      assert KeysOf(d) == [d[0].0] + KeysOf(d[1..]);
      GetPresent(d[1..], k);
    }
  }

  /** `d.get(k, default)`. */
  function GetOr(d: Dict, k: string, default: Json): Json {
    Get(d, k).GetOr(default)
  }

  /** The value at position i is the one `get` finds when no earlier key equals key i. */
  lemma {:induction false} GetFirst(d: Dict, i: int)
    requires 0 <= i < |d|
    requires forall j :: 0 <= j < i ==> d[j].0 != d[i].0
    ensures Get(d, d[i].0) == Some(d[i].1)
  {
    if i > 0 {
      GetFirst(d[1..], i - 1);
    }
  }

  /** In a dict whose keys are distinct, the value at any position is the one `get` finds. */
  lemma GetDistinct(d: Dict, i: int)
    requires Distinct(KeysOf(d))
    requires 0 <= i < |d|
    ensures Get(d, d[i].0) == Some(d[i].1)
  {
    GetFirst(d, i);
  }

  /** `d[k] = v`: an existing key keeps its position and takes the new value; a new key is appended. */
  function Put(d: Dict, k: string, v: Json): (r: Dict)
    ensures k in KeysOf(d) ==> KeysOf(r) == KeysOf(d)
    ensures k !in KeysOf(d) ==> r == d + [(k, v)]
    ensures Get(r, k) == Some(v)
  {
    if |d| == 0 then [(k, v)]
    else if d[0].0 == k then [(k, v)] + d[1..]
    else
      assert KeysOf(d) == [d[0].0] + KeysOf(d[1..]);
      var rest := Put(d[1..], k, v);
      assert KeysOf([d[0]] + rest) == [d[0].0] + KeysOf(rest);
      [d[0]] + rest
  }

  /** Python truthiness: `None`, `False`, zero, and empty strings, lists and dicts are false. */
  predicate Truthy(j: Json) {
    match j
    case JNull => false
    case JBool(b) => b
    case JInt(i) => i != 0
    case JFloat(f) => f != 0.0
    case JStr(s) => |s| > 0
    case JArr(xs) => |xs| > 0
    case JObj(ms) => |ms| > 0
  }

  /** The number a value compares equal to under Python `==` (a bool is the int 0 or 1). */
  function NumericValue(j: Json): (r: Option<real>)
    ensures r.Some? <==> j.JBool? || j.JInt? || j.JFloat?
  {
    match j
    case JBool(b) => Some(if b then 1.0 else 0.0)
    case JInt(i) => Some(i as real)
    case JFloat(f) => Some(f)
    case _ => None
  }

  /** Python `j == n` for an int literal n: true for the int n, the float n.0 and, when n is 0 or 1, the matching bool. */
  predicate PyEqualsInt(j: Json, n: int) {
    NumericValue(j) == Some(n as real)
  }

  /** Whether `j` can be a dict key: lists and dicts are unhashable. */
  predicate Hashable(j: Json) {
    !j.JArr? && !j.JObj?
  }

  /** Python `t in s` on strings: `t` occurs as a contiguous substring of `s`. */
  predicate IsSubstring(t: string, s: string)
    decreases |s|
  {
    |t| <= |s| && (s[..|t|] == t || IsSubstring(t, s[1..]))
  }
}

=== FILE: normalizer.dfy ===
/**
 * The record normaliser (`process_holiday_data`): one raw per-day record of the
 * holiday API becomes a snapshot dict with a fixed key set. Absent fields take
 * defaults, the day-type code is looked up in a four-entry table, and the
 * vacation and remark lists are padded or truncated into 7 and 4 named slots.
 */
module Normalizer {
  import opened Wrappers
  import opened JsonValues

  const VacationSlotCount: nat := 7
  const RemarkSlotCount: nat := 4

  /** DAYCODE_MAP: workday, holiday, weekend, shifted workday. */
  const DayCodeMap: map<int, string> := map[0 := "工作日", 1 := "节假日", 2 := "双休日", 3 := "调休日"]

  /** The scalar keys of a snapshot, in the order the snapshot dict is built. */
  const ScalarKeys: seq<string> :=
    ["date", "daycode", "day_type", "weekday", "weekday_cn", "lunar_year", "lunar_month",
     "lunar_day", "info", "start", "now", "end", "holiday", "name", "name_en", "isnotwork",
     "wage", "tip", "rest"]

  /** Every snapshot has exactly these keys, in this order. */
  const SnapshotKeys: seq<string> := ScalarKeys + ["vacation", "remark"]

  const VacationKeys: seq<string> :=
    ["vacation_01", "vacation_02", "vacation_03", "vacation_04", "vacation_05", "vacation_06", "vacation_07"]

  const RemarkKeys: seq<string> := ["remark_01", "remark_02", "remark_03", "remark_04"]

  // ---------------------------------------------------------------------------
  // Slot names: f"{prefix}{str(i+1).zfill(2)}"
  // ---------------------------------------------------------------------------

  function Digit(d: nat): char
    requires d < 10
  {
    ('0' as int + d) as char
  }

  /** `str(n)` for a natural number. */
  function Decimal(n: nat): (s: string)
    ensures 1 <= |s|
    ensures n < 10 ==> s == [Digit(n)]
  {
    if n < 10 then [Digit(n)] else Decimal(n / 10) + [Digit(n % 10)]
  }

  /** `s.zfill(width)` for a string without a sign: left-pad with '0' to at least `width` characters. */
  function ZFill(s: string, width: nat): (r: string)
    ensures |r| == if |s| < width then width else |s|
    ensures r[|r| - |s|..] == s
    ensures forall i :: 0 <= i < |r| - |s| ==> r[i] == '0'
  {
    if |s| >= width then s else seq(width - |s|, _ => '0') + s
  }

  /** The name of slot i (counting from 0) under `prefix`. */
  function SlotKey(prefix: string, i: nat): string {
    prefix + ZFill(Decimal(i + 1), 2)
  }

  /** Below nine slots, a slot name is the prefix, a '0' and the one-digit slot number. */
  lemma SlotKeyShape(prefix: string, i: nat)
    requires i < 9
    ensures SlotKey(prefix, i) == prefix + ['0', Digit(i + 1)]
  {
    var z := ZFill(Decimal(i + 1), 2);
    assert |z| == 2 && z[1..] == [Digit(i + 1)] && z[0] == '0';
    assert z == ['0', Digit(i + 1)];
  }

  /** Below nine slots, different slots have different names. */
  lemma SlotKeysInjective(prefix: string, i: nat, j: nat)
    requires i < 9 && j < 9 && i != j
    ensures SlotKey(prefix, i) != SlotKey(prefix, j)
  {
    SlotKeyShape(prefix, i);
    SlotKeyShape(prefix, j);
    assert SlotKey(prefix, i)[|prefix| + 1] != SlotKey(prefix, j)[|prefix| + 1];
  }

  // ---------------------------------------------------------------------------
  // Fixed-width expansion of the vacation and remark lists
  // ---------------------------------------------------------------------------

  /**
   * The elements `x[i] if i < len(x) else ""` can read, in order, when `x` is the
   * value of the vacation or remark field; None when Python would raise instead.
   * A list reads as its items and a string as its one-character substrings; an
   * empty dict is never indexed; a non-empty dict raises KeyError on `x[0]`, and
   * `len()` of null, a bool or a number raises TypeError.
   */
  function AsSequence(x: Json): (r: Option<seq<Json>>)
    ensures r.Some? <==> x.JArr? || x.JStr? || x == JObj([])
    ensures x.JArr? ==> r == Some(x.items)
    ensures x.JStr? ==> r.Some? && |r.value| == |x.s|
    ensures x.JStr? ==> forall i :: 0 <= i < |x.s| ==> r.value[i] == JStr([x.s[i]])
  {
    match x
    case JArr(xs) => Some(xs)
    case JStr(s) => Some(seq(|s|, i requires 0 <= i < |s| => JStr([s[i]])))
    case JObj(ms) => if |ms| == 0 then Some([]) else None
    case _ => None
  }

  /** The slot dict built by the `for i in range(n)` loop: slot i holds element i, or "" past the end. */
  function Slots(prefix: string, xs: seq<Json>, n: nat): (d: Dict)
    ensures |d| == n
    ensures forall i :: 0 <= i < n ==> d[i].0 == SlotKey(prefix, i)
    ensures forall i :: 0 <= i < n && i < |xs| ==> d[i].1 == xs[i]
    ensures forall i :: |xs| <= i < n ==> d[i].1 == Blank
  {
    if n == 0 then []
    else Slots(prefix, xs, n - 1) + [(SlotKey(prefix, n - 1), if n - 1 < |xs| then xs[n - 1] else Blank)]
  }

  /** The values of a dict, in order. */
  function ValuesOf(d: Dict): (vs: seq<Json>)
    ensures |vs| == |d|
    ensures forall i :: 0 <= i < |d| ==> vs[i] == d[i].1
  {
    seq(|d|, i requires 0 <= i < |d| => d[i].1)
  }

  /** Reference: the first n elements of xs, followed by "" up to length n. */
  function Pad(xs: seq<Json>, n: nat): seq<Json> {
    if |xs| >= n then xs[..n] else xs + seq(n - |xs|, _ => Blank)
  }

  /** The slot values are the list padded with "" or cut to n: order kept, extra entries dropped. */
  lemma SlotValuesArePadded(prefix: string, xs: seq<Json>, n: nat)
    ensures ValuesOf(Slots(prefix, xs, n)) == Pad(xs, n)
  {
    var vs, ps := ValuesOf(Slots(prefix, xs, n)), Pad(xs, n);
    forall i | 0 <= i < n ensures vs[i] == ps[i] {
      if |xs| < n && i >= |xs| {
        assert ps[i] == seq(n - |xs|, _ => Blank)[i - |xs|];
      }
    }
  }

  /** The list without its trailing "" entries. */
  function TrimBlanks(xs: seq<Json>): (r: seq<Json>)
    ensures |r| <= |xs|
    ensures r == xs[..|r|]
  {
    if |xs| == 0 || xs[|xs| - 1] != Blank then xs else TrimBlanks(xs[..|xs| - 1])
  }

  /** A list of at most n entries that does not end in "" is recovered from its slots by dropping trailing "". */
  lemma {:induction false} SlotsRoundTrip(prefix: string, xs: seq<Json>, n: nat)
    requires |xs| <= n
    requires |xs| == 0 || xs[|xs| - 1] != Blank
    ensures TrimBlanks(ValuesOf(Slots(prefix, xs, n))) == xs
  {
    SlotValuesArePadded(prefix, xs, n);
    TrimPadding(xs, n - |xs|);
  }

  lemma {:induction false} TrimPadding(xs: seq<Json>, k: nat)
    requires |xs| == 0 || xs[|xs| - 1] != Blank
    ensures TrimBlanks(xs + seq(k, _ => Blank)) == xs
    decreases k
  {
    if k == 0 {
      assert xs + seq(0, _ => Blank) == xs;
    } else {
      var ys := xs + seq(k, _ => Blank);
      assert ys[|ys| - 1] == Blank;
      assert ys[..|ys| - 1] == xs + seq(k - 1, _ => Blank) by {
        var init, zs := ys[..|ys| - 1], xs + seq(k - 1, _ => Blank);
        forall i | 0 <= i < |init| ensures init[i] == zs[i] {
          if i >= |xs| {
            assert ys[i] == seq(k, _ => Blank)[i - |xs|];
          }
        }
      }
      TrimPadding(xs, k - 1);
    }
  }

  /** The seven vacation slots are named vacation_01 .. vacation_07, whatever the list holds. */
  lemma VacationSlotNames(xs: seq<Json>)
    ensures KeysOf(Slots("vacation_", xs, VacationSlotCount)) == VacationKeys
  {
    var d := Slots("vacation_", xs, VacationSlotCount);
    forall i | 0 <= i < 7 ensures KeysOf(d)[i] == VacationKeys[i] {
      SlotKeyShape("vacation_", i);
    }
  }

  /** The four remark slots are named remark_01 .. remark_04, whatever the list holds. */
  lemma RemarkSlotNames(xs: seq<Json>)
    ensures KeysOf(Slots("remark_", xs, RemarkSlotCount)) == RemarkKeys
  {
    var d := Slots("remark_", xs, RemarkSlotCount);
    forall i | 0 <= i < 4 ensures KeysOf(d)[i] == RemarkKeys[i] {
      SlotKeyShape("remark_", i);
    }
  }

  // ---------------------------------------------------------------------------
  // Day-type label
  // ---------------------------------------------------------------------------

  /**
   * `DAYCODE_MAP.get(code, "")`. Dict lookup uses hashing and Python equality, so
   * True finds code 1 and 2.0 finds code 2; an unhashable code (a list or a dict)
   * raises TypeError, which is None here.
   */
  function DayTypeOf(code: Json): (r: Option<Json>)
    ensures r.None? <==> !Hashable(code)
    ensures r.Some? ==> r.value.JStr?
  {
    if !Hashable(code) then None
    else match NumericValue(code)
      case Some(x) =>
        if x.Floor as real == x && x.Floor in DayCodeMap then Some(JStr(DayCodeMap[x.Floor])) else Some(Blank)
      case None => Some(Blank)
  }

  /** The label is entry n of the table exactly when the code equals n; any other hashable code gets "". */
  lemma DayTypeTable(code: Json)
    requires Hashable(code)
    ensures forall n :: 0 <= n < 4 ==> (DayTypeOf(code) == Some(JStr(DayCodeMap[n])) <==> PyEqualsInt(code, n))
    ensures (forall n :: 0 <= n < 4 ==> !PyEqualsInt(code, n)) <==> DayTypeOf(code) == Some(Blank)
  {
    assert forall m :: m in DayCodeMap <==> 0 <= m < 4;
    match NumericValue(code)
    case Some(x) =>
      if x.Floor as real == x && x.Floor in DayCodeMap {
        assert PyEqualsInt(code, x.Floor);
      }
    case None =>
  }

  // ---------------------------------------------------------------------------
  // The normaliser
  // ---------------------------------------------------------------------------

  /** What `process_holiday_data` needs of a record to return instead of raising. */
  predicate Normalizable(raw: Dict) {
    var vacation := GetOr(raw, "vacation", JArr([]));
    var remark := GetOr(raw, "remark", JArr([]));
    && (vacation.JArr? || vacation.JStr? || vacation == JObj([]))
    && (remark.JArr? || remark.JStr? || remark == JObj([]))
    && Hashable(GetOr(raw, "daycode", JInt(0)))
  }

  /** `process_holiday_data`; None where the Python code raises. */
  function Normalize(raw: Dict): (r: Option<Dict>)
    ensures r.Some? <==> Normalizable(raw)
    ensures r.Some? ==> KeysOf(r.value) == SnapshotKeys
  {
    var vacation := AsSequence(GetOr(raw, "vacation", JArr([])));
    var remark := AsSequence(GetOr(raw, "remark", JArr([])));
    var dayType := DayTypeOf(GetOr(raw, "daycode", JInt(0)));
    if vacation.None? || remark.None? || dayType.None? then None
    else Some(Assemble(raw, dayType.value, Slots("vacation_", vacation.value, VacationSlotCount),
                       Slots("remark_", remark.value, RemarkSlotCount)))
  }

  /** The snapshot dict literal of `process_holiday_data`, given the computed label and slot dicts. */
  function Assemble(raw: Dict, dayType: Json, vacation: Dict, remark: Dict): (d: Dict)
    ensures KeysOf(d) == SnapshotKeys
  {
    [
      ("date", GetOr(raw, "date", Blank)),
      ("daycode", GetOr(raw, "daycode", Blank)),
      ("day_type", dayType),
      ("weekday", GetOr(raw, "weekday", Blank)),
      ("weekday_cn", GetOr(raw, "cnweekday", Blank)),
      ("lunar_year", GetOr(raw, "lunaryear", Blank)),
      ("lunar_month", GetOr(raw, "lunarmonth", Blank)),
      ("lunar_day", GetOr(raw, "lunarday", Blank)),
      ("info", GetOr(raw, "info", Blank)),
      ("start", GetOr(raw, "start", JInt(0))),
      ("now", GetOr(raw, "now", JInt(0))),
      ("end", GetOr(raw, "end", JInt(0))),
      ("holiday", GetOr(raw, "holiday", Blank)),
      ("name", GetOr(raw, "name", Blank)),
      ("name_en", GetOr(raw, "enname", Blank)),
      ("isnotwork", GetOr(raw, "isnotwork", JInt(1))),
      ("wage", GetOr(raw, "wage", JInt(0))),
      ("tip", GetOr(raw, "tip", Blank)),
      ("rest", GetOr(raw, "rest", Blank)),
      ("vacation", JObj(vacation)),
      ("remark", JObj(remark))
    ]
  }

  /** In a dict with the snapshot's keys, `get` of key i finds the value at position i. */
  lemma GetSnapshotField(d: Dict, i: int)
    requires KeysOf(d) == SnapshotKeys
    requires 0 <= i < |SnapshotKeys|
    ensures Get(d, SnapshotKeys[i]) == Some(d[i].1)
  {
    SnapshotKeysDistinct();
    GetDistinct(d, i);
  }

  /** Different snapshot keys are different strings. */
  lemma SnapshotKeysDistinct()
    ensures Distinct(SnapshotKeys)
  {
    forall i, j | 0 <= i < j < |SnapshotKeys| ensures SnapshotKeys[i] != SnapshotKeys[j] {
      var a, b := SnapshotKeys[i], SnapshotKeys[j];
      if |a| == |b| {
        assert a[0] != b[0];
      }
    }
  }

  // ---------------------------------------------------------------------------
  // What a snapshot holds
  // ---------------------------------------------------------------------------

  /**
   * Every copied field holds the record's value under its source key (renamed
   * for weekday_cn, lunar_*, name_en), or its default when that key is absent:
   * 0 for start, now, end and wage, 1 for isnotwork, "" for the rest.
   */
  lemma CopiedFields(raw: Dict)
    requires Normalizable(raw)
    ensures Get(Normalize(raw).value, "date") == Some(GetOr(raw, "date", Blank))
    ensures Get(Normalize(raw).value, "daycode") == Some(GetOr(raw, "daycode", Blank))
    ensures Get(Normalize(raw).value, "weekday") == Some(GetOr(raw, "weekday", Blank))
    ensures Get(Normalize(raw).value, "weekday_cn") == Some(GetOr(raw, "cnweekday", Blank))
    ensures Get(Normalize(raw).value, "lunar_year") == Some(GetOr(raw, "lunaryear", Blank))
    ensures Get(Normalize(raw).value, "lunar_month") == Some(GetOr(raw, "lunarmonth", Blank))
    ensures Get(Normalize(raw).value, "lunar_day") == Some(GetOr(raw, "lunarday", Blank))
    ensures Get(Normalize(raw).value, "info") == Some(GetOr(raw, "info", Blank))
    ensures Get(Normalize(raw).value, "start") == Some(GetOr(raw, "start", JInt(0)))
    ensures Get(Normalize(raw).value, "now") == Some(GetOr(raw, "now", JInt(0)))
    ensures Get(Normalize(raw).value, "end") == Some(GetOr(raw, "end", JInt(0)))
    ensures Get(Normalize(raw).value, "holiday") == Some(GetOr(raw, "holiday", Blank))
    ensures Get(Normalize(raw).value, "name") == Some(GetOr(raw, "name", Blank))
    ensures Get(Normalize(raw).value, "name_en") == Some(GetOr(raw, "enname", Blank))
    ensures Get(Normalize(raw).value, "isnotwork") == Some(GetOr(raw, "isnotwork", JInt(1)))
    ensures Get(Normalize(raw).value, "wage") == Some(GetOr(raw, "wage", JInt(0)))
    ensures Get(Normalize(raw).value, "tip") == Some(GetOr(raw, "tip", Blank))
    ensures Get(Normalize(raw).value, "rest") == Some(GetOr(raw, "rest", Blank))
  {
    var vacation := AsSequence(GetOr(raw, "vacation", JArr([]))).value;
    var remark := AsSequence(GetOr(raw, "remark", JArr([]))).value;
    var dayType := DayTypeOf(GetOr(raw, "daycode", JInt(0))).value;
    var v, r := Slots("vacation_", vacation, VacationSlotCount), Slots("remark_", remark, RemarkSlotCount);
    AssembledFields(raw, dayType, v, r);
  }

  lemma AssembledFields(raw: Dict, dayType: Json, vacation: Dict, remark: Dict)
    ensures Get(Assemble(raw, dayType, vacation, remark), "date") == Some(GetOr(raw, "date", Blank))
    ensures Get(Assemble(raw, dayType, vacation, remark), "daycode") == Some(GetOr(raw, "daycode", Blank))
    ensures Get(Assemble(raw, dayType, vacation, remark), "weekday") == Some(GetOr(raw, "weekday", Blank))
    ensures Get(Assemble(raw, dayType, vacation, remark), "weekday_cn") == Some(GetOr(raw, "cnweekday", Blank))
    ensures Get(Assemble(raw, dayType, vacation, remark), "lunar_year") == Some(GetOr(raw, "lunaryear", Blank))
    ensures Get(Assemble(raw, dayType, vacation, remark), "lunar_month") == Some(GetOr(raw, "lunarmonth", Blank))
    ensures Get(Assemble(raw, dayType, vacation, remark), "lunar_day") == Some(GetOr(raw, "lunarday", Blank))
    ensures Get(Assemble(raw, dayType, vacation, remark), "info") == Some(GetOr(raw, "info", Blank))
    ensures Get(Assemble(raw, dayType, vacation, remark), "start") == Some(GetOr(raw, "start", JInt(0)))
    ensures Get(Assemble(raw, dayType, vacation, remark), "now") == Some(GetOr(raw, "now", JInt(0)))
    ensures Get(Assemble(raw, dayType, vacation, remark), "end") == Some(GetOr(raw, "end", JInt(0)))
    ensures Get(Assemble(raw, dayType, vacation, remark), "holiday") == Some(GetOr(raw, "holiday", Blank))
    ensures Get(Assemble(raw, dayType, vacation, remark), "name") == Some(GetOr(raw, "name", Blank))
    ensures Get(Assemble(raw, dayType, vacation, remark), "name_en") == Some(GetOr(raw, "enname", Blank))
    ensures Get(Assemble(raw, dayType, vacation, remark), "isnotwork") == Some(GetOr(raw, "isnotwork", JInt(1)))
    ensures Get(Assemble(raw, dayType, vacation, remark), "wage") == Some(GetOr(raw, "wage", JInt(0)))
    ensures Get(Assemble(raw, dayType, vacation, remark), "tip") == Some(GetOr(raw, "tip", Blank))
    ensures Get(Assemble(raw, dayType, vacation, remark), "rest") == Some(GetOr(raw, "rest", Blank))
  {
    var snap := Assemble(raw, dayType, vacation, remark);
    // date, daycode (position 2, day_type, is not a copied field)
    GetSnapshotField(snap, 0);
    GetSnapshotField(snap, 1);
    // weekday, weekday_cn, lunar_year, lunar_month, lunar_day, info
    GetSnapshotField(snap, 3);
    GetSnapshotField(snap, 4);
    GetSnapshotField(snap, 5);
    GetSnapshotField(snap, 6);
    GetSnapshotField(snap, 7);
    GetSnapshotField(snap, 8);
    // start, now, end
    GetSnapshotField(snap, 9);
    GetSnapshotField(snap, 10);
    GetSnapshotField(snap, 11);
    // holiday, name, name_en, isnotwork, wage, tip, rest
    GetSnapshotField(snap, 12);
    GetSnapshotField(snap, 13);
    GetSnapshotField(snap, 14);
    GetSnapshotField(snap, 15);
    GetSnapshotField(snap, 16);
    GetSnapshotField(snap, 17);
    GetSnapshotField(snap, 18);
  }

  /** The label is the table lookup of the daycode, read as 0 when absent, while the daycode field itself defaults to "". */
  lemma {:induction false} SnapshotDayType(raw: Dict)
    requires Normalizable(raw)
    ensures Get(Normalize(raw).value, "day_type") == DayTypeOf(GetOr(raw, "daycode", JInt(0)))
    ensures Get(raw, "daycode").None? ==>
      Get(Normalize(raw).value, "day_type") == Some(JStr(DayCodeMap[0]))
      && Get(Normalize(raw).value, "daycode") == Some(Blank)
  {
    var snap := Normalize(raw).value;
    GetSnapshotField(snap, 1);
    GetSnapshotField(snap, 2);
    DayTypeTable(JInt(0));
  }

  /** The vacation and remark entries are slot dicts with fixed names holding the padded lists. */
  lemma {:induction false} SnapshotSlots(raw: Dict)
    requires Normalizable(raw)
    ensures Get(Normalize(raw).value, "vacation") == Some(JObj(Slots("vacation_", AsSequence(GetOr(raw, "vacation", JArr([]))).value, VacationSlotCount)))
    ensures Get(Normalize(raw).value, "remark") == Some(JObj(Slots("remark_", AsSequence(GetOr(raw, "remark", JArr([]))).value, RemarkSlotCount)))
    ensures Get(raw, "vacation").None? ==> Get(Normalize(raw).value, "vacation") == Some(JObj(Slots("vacation_", [], VacationSlotCount)))
    ensures Get(raw, "remark").None? ==> Get(Normalize(raw).value, "remark") == Some(JObj(Slots("remark_", [], RemarkSlotCount)))
  {
    var snap := Normalize(raw).value;
    GetSnapshotField(snap, 19);
    GetSnapshotField(snap, 20);
  }

  /** A record with none of the known fields normalises to all defaults, label workday and every slot "". */
  lemma EmptyRecord()
    ensures Normalize([]) == Some(BlankSnapshot)
  {
    EmptySlots();
    DayTypeTable(JInt(0));
    assert Normalize([]) == Some(Assemble([], JStr("工作日"), BlankSnapshot[19].1.members, BlankSnapshot[20].1.members));
    BlankAssembly();
  }

  lemma BlankAssembly()
    ensures Assemble([], JStr("工作日"), BlankSnapshot[19].1.members, BlankSnapshot[20].1.members) == BlankSnapshot
  {
  }

  lemma EmptySlots()
    ensures Slots("vacation_", [], VacationSlotCount) == BlankSnapshot[19].1.members
    ensures Slots("remark_", [], RemarkSlotCount) == BlankSnapshot[20].1.members
  {
    var v := Slots("vacation_", [], VacationSlotCount);
    var r := Slots("remark_", [], RemarkSlotCount);
    VacationSlotNames([]);
    RemarkSlotNames([]);
    assert forall i :: 0 <= i < 7 ==> v[i].0 == KeysOf(v)[i];
    assert forall i :: 0 <= i < 4 ==> r[i].0 == KeysOf(r)[i];
  }

  /** The snapshot of a record with no known field. */
  const BlankSnapshot: Dict := [
    ("date", Blank), ("daycode", Blank), ("day_type", JStr("工作日")), ("weekday", Blank),
    ("weekday_cn", Blank), ("lunar_year", Blank), ("lunar_month", Blank), ("lunar_day", Blank),
    ("info", Blank), ("start", JInt(0)), ("now", JInt(0)), ("end", JInt(0)), ("holiday", Blank),
    ("name", Blank), ("name_en", Blank), ("isnotwork", JInt(1)), ("wage", JInt(0)), ("tip", Blank),
    ("rest", Blank),
    ("vacation", JObj([("vacation_01", Blank), ("vacation_02", Blank), ("vacation_03", Blank),
                       ("vacation_04", Blank), ("vacation_05", Blank), ("vacation_06", Blank),
                       ("vacation_07", Blank)])),
    ("remark", JObj([("remark_01", Blank), ("remark_02", Blank), ("remark_03", Blank), ("remark_04", Blank)]))
  ]

  /** A holiday record with one vacation day and no remarks. */
  const HolidayRecord: Dict := [("daycode", JInt(1)), ("vacation", JArr([JStr("2024-01-01")])), ("remark", JArr([]))]

  /** The holiday record gets the label "holiday". */
  lemma HolidayExampleLabel()
    ensures Normalize(HolidayRecord).Some?
    ensures Get(Normalize(HolidayRecord).value, "day_type") == Some(JStr("节假日"))
  {
    HolidayRecordFields();
    SnapshotDayType(HolidayRecord);
  }

  lemma HolidayRecordFields()
    ensures GetOr(HolidayRecord, "daycode", JInt(0)) == JInt(1)
    ensures GetOr(HolidayRecord, "vacation", JArr([])) == JArr([JStr("2024-01-01")])
    ensures GetOr(HolidayRecord, "remark", JArr([])) == JArr([])
  {
    GetFirst(HolidayRecord, 0);
    GetFirst(HolidayRecord, 1);
    GetFirst(HolidayRecord, 2);
  }

  /** The holiday record has its date in vacation slot 1, "" in every other vacation slot and every remark slot. */
  lemma HolidayExampleSlots()
    ensures Normalize(HolidayRecord).Some?
    ensures Get(Normalize(HolidayRecord).value, "vacation") == Some(JObj([
      ("vacation_01", JStr("2024-01-01")), ("vacation_02", Blank), ("vacation_03", Blank),
      ("vacation_04", Blank), ("vacation_05", Blank), ("vacation_06", Blank), ("vacation_07", Blank)]))
    ensures Get(Normalize(HolidayRecord).value, "remark") == Some(JObj(BlankSnapshot[20].1.members))
  {
    HolidayRecordFields();
    SnapshotSlots(HolidayRecord);
    EmptySlots();
    OneVacationDay();
  }

  lemma OneVacationDay()
    ensures Slots("vacation_", [JStr("2024-01-01")], VacationSlotCount) == [
      ("vacation_01", JStr("2024-01-01")), ("vacation_02", Blank), ("vacation_03", Blank),
      ("vacation_04", Blank), ("vacation_05", Blank), ("vacation_06", Blank), ("vacation_07", Blank)]
  {
    var v := Slots("vacation_", [JStr("2024-01-01")], VacationSlotCount);
    VacationSlotNames([JStr("2024-01-01")]);
    assert forall i :: 0 <= i < 7 ==> v[i].0 == KeysOf(v)[i];
  }
}

=== FILE: retry.dfy ===
/**
 * The sensor's update cycle: the stored snapshot, the time of the last success
 * and the retry counter, driven by fetch attempts. Timers are not modelled: a
 * failed attempt returns the retry it would schedule, and a later attempt is an
 * explicit input.
 */
module RetryPolicy {
  import opened Wrappers
  import opened JsonValues
  import opened Normalizer
  import opened Fetcher

  /** The number of retries after a failed attempt before giving up until the next daily trigger. */
  const MaxRetries: nat := 2

  /** The delay before a retry, in seconds. */
  const RetryDelaySeconds: nat := 300

  /** The sensor's mutable state: `_data`, `_update_time` and `_retry_count`. */
  datatype Sensor = Sensor(data: Dict, updateTime: string, retryCount: nat)

  /** What an attempt leaves scheduled: nothing, or one retry after a delay. */
  datatype Effect = NoRetry | RetryAfter(seconds: nat)

  /** One fetch attempt: how the HTTP exchange ended and the formatted clock time at that moment. */
  datatype Attempt = Attempt(outcome: FetchOutcome, clock: string)

  /** The state `__init__` leaves: no data, no update time, no retries. */
  const Initial: Sensor := Sensor([], "", 0)

  /** An attempt succeeds when the fetch returns a non-empty dict; an error or the empty result is a failure. */
  predicate Succeeds(o: FetchOutcome) {
    Fetch(o).Ok? && Fetch(o).value != []
  }

  /** `_async_handle_retry`: count the failure; schedule a retry while within the bound, else reset and give up. */
  function HandleRetry(s: Sensor): (r: (Sensor, Effect))
    ensures r.0.data == s.data && r.0.updateTime == s.updateTime
    ensures r.0.retryCount <= MaxRetries
    ensures r.1.RetryAfter? <==> s.retryCount < MaxRetries
    ensures r.1.RetryAfter? ==> r.1.seconds == RetryDelaySeconds && r.0.retryCount == s.retryCount + 1
    ensures r.1.NoRetry? ==> r.0.retryCount == 0
  {
    var count := s.retryCount + 1;
    if count <= MaxRetries then (s.(retryCount := count), RetryAfter(RetryDelaySeconds))
    else (s.(retryCount := 0), NoRetry)
  }

  /**
   * `_async_update_holiday_data`, also run by the first update, a manual update
   * and a retry timer: a success replaces the snapshot wholesale, stamps the
   * time and clears the counter; any failure keeps the snapshot and goes to
   * the retry handling.
   */
  function UpdateHolidayData(s: Sensor, a: Attempt): (r: (Sensor, Effect))
    ensures Succeeds(a.outcome) ==> r == (Sensor(Fetch(a.outcome).value, a.clock, 0), NoRetry)
    ensures !Succeeds(a.outcome) ==> r == HandleRetry(s)
    ensures !Succeeds(a.outcome) ==> r.0.data == s.data && r.0.updateTime == s.updateTime
    ensures !Succeeds(a.outcome) ==> (r.1.RetryAfter? <==> s.retryCount < MaxRetries)
    ensures !Succeeds(a.outcome) && r.1.RetryAfter? ==> r.0.retryCount == s.retryCount + 1
    ensures !Succeeds(a.outcome) && r.1.NoRetry? ==> r.0.retryCount == 0
    ensures r.0.retryCount <= MaxRetries
    ensures r.1.RetryAfter? ==> 1 <= r.0.retryCount
  {
    match Fetch(a.outcome)
    case Ok(data) => if data != [] then (Sensor(data, a.clock, 0), NoRetry) else HandleRetry(s)
    case Err(_) => HandleRetry(s)
  }

  /** `_async_scheduled_update`: the daily trigger clears the counter, then updates. */
  function ScheduledUpdate(s: Sensor, a: Attempt): (r: (Sensor, Effect))
    ensures !Succeeds(a.outcome) ==> r == (s.(retryCount := 1), RetryAfter(RetryDelaySeconds))
    ensures Succeeds(a.outcome) ==> r == (Sensor(Fetch(a.outcome).value, a.clock, 0), NoRetry)
  {
    UpdateHolidayData(s.(retryCount := 0), a)
  }

  /**
   * `_async_update_holiday_data` with the host's state write as an input. The
   * write (`async_write_ha_state`) sits inside the `try`, after the new snapshot,
   * time and cleared counter are stored; when it raises, the `except` runs the
   * retry handling on that already-updated state. It raises while the entity
   * has no entity id, as during the first update in `async_setup_entry`, which
   * runs before the entity is added.
   */
  function UpdateWithWrite(s: Sensor, a: Attempt, writeRaises: bool): (r: (Sensor, Effect))
    ensures !Succeeds(a.outcome) || !writeRaises ==> r == UpdateHolidayData(s, a)
    ensures Succeeds(a.outcome) && writeRaises ==>
      r == (Sensor(Fetch(a.outcome).value, a.clock, 1), RetryAfter(RetryDelaySeconds))
  {
    var (s1, e1) := UpdateHolidayData(s, a);
    if Succeeds(a.outcome) && writeRaises then HandleRetry(s1) else (s1, e1)
  }

  /** A status-200 response whose envelope reports success and carries one empty record. */
  const SampleResponse: FetchOutcome := Responded(200, Some(Envelope(JInt(200), JStr("success"), [JObj([])])))

  /** The sample response is a successful fetch of the all-defaults snapshot. */
  lemma SampleResponseFetch()
    ensures Fetch(SampleResponse) == Ok(BlankSnapshot)
    ensures Succeeds(SampleResponse)
  {
    EnvelopeDecision(JInt(200), JStr("success"), [JObj([])]);
    EmptyRecord();
  }

  /** As written: a successful first fetch whose state write raises still schedules a retry, with the counter at 1. */
  lemma StartupWriteSchedulesRetry()
    ensures UpdateWithWrite(Initial, Attempt(SampleResponse, "2024-01-01 00:01:00"), true) ==
            (Sensor(BlankSnapshot, "2024-01-01 00:01:00", 1), RetryAfter(RetryDelaySeconds))
  {
    SampleResponseFetch();
  }

  /** As intended: the same successful fetch stores the snapshot, clears the counter and schedules nothing. */
  lemma StartupSuccessSchedulesNothing()
    ensures UpdateHolidayData(Initial, Attempt(SampleResponse, "2024-01-01 00:01:00")) ==
            (Sensor(BlankSnapshot, "2024-01-01 00:01:00", 0), NoRetry)
  {
    SampleResponseFetch();
  }

  // ---------------------------------------------------------------------------
  // One daily cycle
  // ---------------------------------------------------------------------------

  /** Follow scheduled retries with the given attempts, one attempt per retry: (state, retries run, what is left scheduled). */
  function FollowRetries(s: Sensor, e: Effect, attempts: seq<Attempt>): (Sensor, nat, Effect)
    decreases |attempts|
  {
    if e.NoRetry? || |attempts| == 0 then (s, 0, e)
    else
      var (s1, e1) := UpdateHolidayData(s, attempts[0]);
      var (s2, n, e2) := FollowRetries(s1, e1, attempts[1..]);
      (s2, n + 1, e2)
  }

  /** A daily cycle: the scheduled trigger's attempt, then the retries it schedules. */
  function Cycle(s: Sensor, trigger: Attempt, retries: seq<Attempt>): (Sensor, nat, Effect) {
    var (s1, e1) := ScheduledUpdate(s, trigger);
    FollowRetries(s1, e1, retries)
  }

  /** Following retries from a counter c runs at most MaxRetries + 1 - c of them. */
  lemma {:induction false} FollowRetriesBound(s: Sensor, e: Effect, attempts: seq<Attempt>)
    requires e.RetryAfter? ==> 1 <= s.retryCount <= MaxRetries
    ensures e.RetryAfter? ==> FollowRetries(s, e, attempts).1 <= MaxRetries + 1 - s.retryCount
    ensures e.NoRetry? ==> FollowRetries(s, e, attempts).1 == 0
    decreases |attempts|
  {
    if e.RetryAfter? && |attempts| > 0 {
      var (s1, e1) := UpdateHolidayData(s, attempts[0]);
      FollowRetriesBound(s1, e1, attempts[1..]);
      if e1.RetryAfter? {
        assert s1.retryCount == s.retryCount + 1;
      }
    }
  }

  /** However the attempts turn out, a daily cycle runs at most MaxRetries retries. */
  lemma CycleRetryBound(s: Sensor, trigger: Attempt, retries: seq<Attempt>)
    ensures Cycle(s, trigger, retries).1 <= MaxRetries
  {
    var (s1, e1) := ScheduledUpdate(s, trigger);
    FollowRetriesBound(s1, e1, retries);
  }

  /** Attempts that all fail keep the snapshot and update time, and each bumps or resets the counter. */
  lemma {:induction false} FailingRetries(s: Sensor, e: Effect, attempts: seq<Attempt>)
    requires forall i :: 0 <= i < |attempts| ==> !Succeeds(attempts[i].outcome)
    requires e.RetryAfter? ==> 1 <= s.retryCount <= MaxRetries
    requires e.RetryAfter? ==> |attempts| >= MaxRetries + 1 - s.retryCount
    ensures FollowRetries(s, e, attempts).0.data == s.data
    ensures FollowRetries(s, e, attempts).0.updateTime == s.updateTime
    ensures e.RetryAfter? ==>
      FollowRetries(s, e, attempts).1 == MaxRetries + 1 - s.retryCount
      && FollowRetries(s, e, attempts).2 == NoRetry
      && FollowRetries(s, e, attempts).0.retryCount == 0
    decreases |attempts|
  {
    if e.RetryAfter? && |attempts| > 0 {
      var (s1, e1) := UpdateHolidayData(s, attempts[0]);
      FailingRetries(s1, e1, attempts[1..]);
    }
  }

  /**
   * A cycle in which every attempt fails runs exactly MaxRetries retries, then
   * gives up with nothing scheduled and the counter back at 0, and the
   * previously published snapshot stays in place.
   */
  lemma AllAttemptsFail(s: Sensor, trigger: Attempt, retries: seq<Attempt>)
    requires !Succeeds(trigger.outcome)
    requires forall i :: 0 <= i < |retries| ==> !Succeeds(retries[i].outcome)
    requires |retries| >= MaxRetries
    ensures Cycle(s, trigger, retries).1 == MaxRetries
    ensures Cycle(s, trigger, retries).2 == NoRetry
    ensures Cycle(s, trigger, retries).0 == s.(retryCount := 0)
  {
    FailingRetries(s.(retryCount := 1), RetryAfter(RetryDelaySeconds), retries);
  }

  // ---------------------------------------------------------------------------
  // Runs of events
  // ---------------------------------------------------------------------------

  /** What drives an attempt: a plain update (first, manual or retry timer) or the daily trigger. */
  datatype Event = Update(attempt: Attempt) | DailyTrigger(attempt: Attempt)

  function Step(s: Sensor, ev: Event): (Sensor, Effect) {
    match ev
    case Update(a) => UpdateHolidayData(s, a)
    case DailyTrigger(a) => ScheduledUpdate(s, a)
  }

  /** The state after handling the events in order. */
  function Run(s: Sensor, events: seq<Event>): Sensor
    decreases |events|
  {
    if |events| == 0 then s else Run(Step(s, events[0]).0, events[1..])
  }

  /** Over any run from a state within bounds, the counter stays within 0..MaxRetries. */
  lemma {:induction false} RunKeepsCounterBounded(s: Sensor, events: seq<Event>)
    requires s.retryCount <= MaxRetries
    ensures Run(s, events).retryCount <= MaxRetries
    decreases |events|
  {
    if |events| > 0 {
      RunKeepsCounterBounded(Step(s, events[0]).0, events[1..]);
    }
  }

  /**
   * Plain updates do not stop the retrying: from a cleared counter, failing
   * updates schedule retries 1 and 2, give up once, and the next failure
   * schedules a retry again. Between two daily triggers, failing updates (host
   * polls among them) therefore keep scheduling retries.
   */
  lemma FailingUpdatesKeepRetrying(s: Sensor, a: Attempt)
    requires s.retryCount == 0
    requires !Succeeds(a.outcome)
    ensures UpdateHolidayData(s, a).1 == RetryAfter(RetryDelaySeconds)
    ensures UpdateHolidayData(UpdateHolidayData(s, a).0, a).1 == RetryAfter(RetryDelaySeconds)
    ensures UpdateHolidayData(UpdateHolidayData(UpdateHolidayData(s, a).0, a).0, a) == (s, NoRetry)
    ensures UpdateHolidayData(UpdateHolidayData(UpdateHolidayData(UpdateHolidayData(s, a).0, a).0, a).0, a).1 ==
            RetryAfter(RetryDelaySeconds)
  {
  }

  /** Once a snapshot is published it is never withdrawn: failures and exhausted retries leave it visible. */
  lemma {:induction false} PublishedStaysPublished(s: Sensor, events: seq<Event>)
    requires s.data != []
    ensures Run(s, events).data != []
    decreases |events|
  {
    if |events| > 0 {
      PublishedStaysPublished(Step(s, events[0]).0, events[1..]);
    }
  }

  /** The state after a run is decided by its last successful attempt: that snapshot, stamped with that attempt's clock. */
  lemma {:induction false} LastSuccessWins(s: Sensor, events: seq<Event>, k: int)
    requires 0 <= k < |events|
    requires Succeeds(events[k].attempt.outcome)
    requires forall j :: k < j < |events| ==> !Succeeds(events[j].attempt.outcome)
    ensures Run(s, events).data == Fetch(events[k].attempt.outcome).value
    ensures Run(s, events).updateTime == events[k].attempt.clock
    decreases |events|
  {
    if k > 0 {
      LastSuccessWins(Step(s, events[0]).0, events[1..], k - 1);
    } else {
      FailuresKeepData(Step(s, events[0]).0, events[1..]);
    }
  }

  /** Failing attempts leave the snapshot and its update time alone. */
  lemma {:induction false} FailuresKeepData(s: Sensor, events: seq<Event>)
    requires forall j :: 0 <= j < |events| ==> !Succeeds(events[j].attempt.outcome)
    ensures Run(s, events).data == s.data
    ensures Run(s, events).updateTime == s.updateTime
    decreases |events|
  {
    if |events| > 0 {
      FailuresKeepData(Step(s, events[0]).0, events[1..]);
    }
  }
}

=== FILE: wrappers.dfy ===
/** Option and Result types shared by the holiday-sensor model. */
module Wrappers {

  /** A value that may be absent: `dict.get` without a default, an optional body. */
  datatype Option<+T> = None | Some(value: T) {

    /** The encapsulated value, or `default` when there is none. */
    function GetOr(default: T): T {
      match this
      case Some(v) => v
      case None => default
    }
  }

  /** The outcome of an operation that can fail with an error of type E. */
  datatype Result<+R, +E> = Ok(value: R) | Err(error: E)
}
